=== FILE: README.md ===
# Recipe store model

A Dafny model of the storage core of a small recipe HTTP API: the recipe
repository (list with search and pagination, get, create, update, delete)
over a JSON store document `{recipes, next_id}`, the in-memory session
registry of the login stub, and the request validation rules that guard
the listing query and the create/update bodies.

The store document is the value `Doc(recipes, nextId)`. Every repository
call is a pure function from the document read to the document written
back (module `Repository`); module `Storage` composes each call with the
read-with-fallback of the file and writes back only on the paths where the
repository writes. The clock is the parameter `now`, the session token is a
parameter, and the file is either a parsed object (`RawDoc`, whose keys may
be missing) or `None` for an absent, unreadable or unparsable file.

Python's `str.lower()` is modelled as ASCII lower-casing (`Text.Lower`):
'A'..'Z' map to 'a'..'z' and every other character is left as it is.
Substring search is Python's `needle in hay` (`Text.Contains`), where the
empty needle occurs everywhere.

The central invariant is `Model.Valid`: ids are pairwise distinct and all
below `nextId`. The empty fallback document satisfies it, and create,
update and delete preserve it, so every history of requests keeps it
(`RepositoryProperties.HistoryKeepsValid`).

## Model

| member | source | states |
|---|---|---|
| Persistence.ReadFile | recipe_app_backend/app/storage.py:19-30 | an absent or unparsable file, or an object missing `recipes` or `next_id`, reads as `{recipes: [], next_id: 1}`; otherwise the stored recipes and counter are returned as they stand |
| Persistence.WriteFile | recipe_app_backend/app/storage.py:33-38 | a written file always carries both the `recipes` and the `next_id` key |
| Persistence.ReadAfterWrite | recipe_app_backend/app/storage.py:19-38 | reading back a written document gives the same recipes and the same `next_id` |
| Persistence.WriteAfterRead | recipe_app_backend/app/storage.py:19-38 | a file holding both keys is written back unchanged after being read |
| Persistence.EmptyDocValid | recipe_app_backend/app/storage.py:22 | the fallback document is empty with counter 1 and satisfies the id invariant |
| Text.Lower | recipe_app_backend/app/storage.py:63-66 | lower-casing keeps the length and maps each character on its own: ASCII capitals to small letters, all else unchanged |
| Seqs.Filter | recipe_app_backend/app/storage.py:64-68 | a list comprehension keeps exactly the elements that pass the test, each as often as it occurs in the input |
| Seqs.FilterIsSubsequence | recipe_app_backend/app/storage.py:72-75 | a list comprehension keeps the survivors in their original relative order |
| Seqs.FilterShrinks | recipe_app_backend/app/storage.py:145-147 | the filtered list is shorter than the input exactly when some element fails the test |
| Query.FilterByQuery | recipe_app_backend/app/storage.py:62-68 | with a non-empty `q`, a recipe is kept iff lower-cased `q` occurs in its lower-cased title or in some lower-cased ingredient; a missing or empty `q` keeps the list unchanged |
| Query.FilterByIngredient | recipe_app_backend/app/storage.py:70-75 | with a non-empty `ingredient`, a recipe is kept iff some lower-cased ingredient contains the lower-cased filter; a missing or empty filter keeps the list unchanged |
| Query.ClampPage | recipe_app_backend/app/storage.py:78 | the effective page is the request when that is at least 1, and exactly 1 otherwise |
| Query.ClampPageSize | recipe_app_backend/app/storage.py:79 | the effective page size lies in 1..100, equals the request when that is in range, and is 1 below and 100 above it |
| Query.PageCount | recipe_app_backend/app/storage.py:84 | `total_pages` is the ceiling of `total / page_size`: `(n-1)*ps < total <= n*ps` |
| Query.Paginate | recipe_app_backend/app/storage.py:77-94 | page and size clamped; at most `page_size` items; item k is result `(page-1)*page_size + k`; empty when the start is past the end; `total_pages` is the ceiling; `first_page` 1; `last_page = max(total_pages, 1)`; `previous_page` absent iff page is 1 and else `page-1`; `next_page` present iff `page*page_size < total` and then `page+1` |
| Query.ListRecipes | recipe_app_backend/app/storage.py:55-95 | every listed recipe is stored and passes every active filter; `total` counts all search results, not just the page |
| QueryProperties.SearchSelectsExactly | recipe_app_backend/app/storage.py:62-75 | a recipe survives both filters iff it is stored and passes every active test |
| QueryProperties.SearchKeepsOrder | recipe_app_backend/app/storage.py:62-75 | the search result is a subsequence of the stored recipes (insertion order is kept) |
| QueryProperties.BothFiltersConjoin | recipe_app_backend/app/storage.py:62-75 | with both `q` and `ingredient` given, filtering one after the other equals one filter by the conjunction of the two tests |
| QueryProperties.CaseInsensitive | recipe_app_backend/app/storage.py:63-67 | two search terms that lower-case alike give the same listing |
| QueryProperties.PageSlice | recipe_app_backend/app/storage.py:80-82 | the page is the Python slice `results[start:end]` with `start = (page-1)*page_size`, `end = start + page_size` |
| QueryProperties.NextPageIffNotLast | recipe_app_backend/app/storage.py:84-92 | `next_page` is present exactly when the page is below `total_pages` |
| QueryProperties.PagesArePrefix | recipe_app_backend/app/storage.py:80-82 | pages 1..n together are the first `n * page_size` results, in order |
| QueryProperties.PagesCoverResults | recipe_app_backend/app/storage.py:77-84 | walking pages 1..`total_pages` returns every result exactly once, in order |
| QueryProperties.TwentyFiveByTen | recipe_app_backend/app/storage.py:77-94 | 25 results at size 10 give 3 pages; page 1 holds 10 with next 2 and no previous; page 3 holds 5 with no next and previous 2 |
| QueryProperties.TomatoSoupExample | recipe_app_backend/app/storage.py:62-75 | a "Tomato Soup" recipe with ingredients tomato and basil matches `q="tomato"` with `ingredient="basil"` and does not match `q="pasta"` |
| Repository.FindFrom | recipe_app_backend/app/storage.py:103-105 | the scan returns the first position from `from` on whose id matches, or none when no later recipe has the id |
| Repository.FindIndex | recipe_app_backend/app/storage.py:130-131 | a position is found iff some recipe has the id, and it is the first such position |
| Repository.GetRecipe | recipe_app_backend/app/storage.py:99-106 | a recipe is returned iff one with the id is stored, and it is the first stored recipe with that id |
| Repository.NewRecipe | recipe_app_backend/app/storage.py:41-51 | missing title, description and instructions become "", missing ingredients and tags become []; id and both timestamps are the assigned ones, whatever the request carried |
| Repository.CreateRecipe | recipe_app_backend/app/storage.py:110-122 | the new recipe gets the old `next_id`, is appended after the unchanged earlier recipes, and `next_id` becomes its id plus 1 |
| Repository.Merge | recipe_app_backend/app/storage.py:132-134 | only the five whitelisted keys present in the patch replace fields; id and `created_at` are kept; `updated_at` becomes `now` |
| Repository.UpdateRecipe | recipe_app_backend/app/storage.py:126-137 | `None` with the document unchanged iff no recipe has the id; otherwise the recipe at the first position holding the id is replaced by its merge and nothing else changes, `next_id` included |
| Repository.DeleteRecipe | recipe_app_backend/app/storage.py:141-150 | reports a removal iff some recipe had the id; afterwards none has it, the others all remain, `next_id` is unchanged, and without a removal the document is unchanged |
| Repository.DropIdFacts | recipe_app_backend/app/storage.py:145-147 | filtering out an id leaves no recipe with it, shortens the list iff the id was present, and otherwise is the identity |
| RepositoryProperties.GetFindsTheRecipe | recipe_app_backend/app/storage.py:103-105 | under the id invariant, lookup of a stored recipe's id returns that recipe |
| RepositoryProperties.CreatePreservesValid | recipe_app_backend/app/storage.py:115-120 | create keeps ids distinct and below `next_id` |
| RepositoryProperties.CreateThenGet | recipe_app_backend/app/storage.py:110-122 | under the invariant the assigned id was unused, and lookup after create returns the new recipe |
| RepositoryProperties.BookkeepingKeysIgnored | recipe_app_backend/app/storage.py:115-118 | `id`, `created_at` and `updated_at` in a request have no effect on create or update |
| RepositoryProperties.MergeIdempotent | recipe_app_backend/app/storage.py:132-133 | applying the same update twice equals applying it once at the later time |
| RepositoryProperties.EmptyPatchTouchesOnlyTime | recipe_app_backend/app/storage.py:132-133 | an update with no fields only refreshes `updated_at` |
| RepositoryProperties.UpdatePreservesValid | recipe_app_backend/app/storage.py:129-136 | update keeps ids distinct and below `next_id` |
| RepositoryProperties.UpdateLeavesOthers | recipe_app_backend/app/storage.py:130-134 | update keeps the list length and every recipe with another id |
| RepositoryProperties.UpdateThenGet | recipe_app_backend/app/storage.py:126-137 | lookup after a successful update returns the updated recipe, whatever the document |
| RepositoryProperties.DeletePreservesValid | recipe_app_backend/app/storage.py:146 | delete keeps ids distinct and below `next_id` |
| RepositoryProperties.DeleteKeepsOrder | recipe_app_backend/app/storage.py:146 | the recipes left after delete are a subsequence of those before |
| RepositoryProperties.DeleteTwice | recipe_app_backend/app/storage.py:141-150 | deleting the same id again reports no removal and changes nothing |
| RepositoryProperties.DeleteRemovesOne | recipe_app_backend/app/storage.py:145-147 | under the invariant a successful delete removes exactly one recipe |
| RepositoryProperties.HistoryKeepsValid | recipe_app_backend/app/storage.py:110-150 | any sequence of creates, updates and deletes from a valid document keeps ids distinct and below `next_id` |
| Storage.ListStored | recipe_app_backend/app/storage.py:55-59 | listing an absent or unparsable file, or an object missing `recipes` or `next_id`, gives no items, total 0, last page 1 and no next page |
| Storage.GetStored | recipe_app_backend/app/storage.py:99-106 | lookup in an absent or unparsable file, or an object missing a key, finds nothing |
| Storage.CreateStored | recipe_app_backend/app/storage.py:110-122 | create always writes; the returned and appended recipe is the request with defaults filled, id `next_id` and both timestamps `now`; the file then holds the old recipes plus that one and the bumped counter; on a fresh or unusable file the first id is 1 and the counter 2 |
| Storage.UpdateStored | recipe_app_backend/app/storage.py:126-137 | the file is written only when the id was found, and then holds the updated document; the returned recipe is the stored one merged with the request |
| Storage.DeleteStored | recipe_app_backend/app/storage.py:141-150 | the file is written only when a recipe was removed; the result is true iff the id was stored; afterwards the id is not found; a write keeps `next_id` and exactly the recipes with other ids |
| Sessions.CreateSession | recipe_app_backend/app/storage.py:159-164 | the token maps to `{user_id, name, created_at}`, replacing any earlier record; other tokens keep their records |
| Sessions.GetSession | recipe_app_backend/app/storage.py:168-171 | a record is returned iff the token is registered, and it is that token's record |
| Sessions.DeleteSession | recipe_app_backend/app/storage.py:175-178 | the token is gone afterwards, the others keep their records, and deleting an absent token leaves the registry unchanged |
| Sessions.LoginThenLookup | recipe_app_backend/app/storage.py:159-171 | looking up a token just created gives the user id and name it was created with |
| Sessions.LogoutThenLookup | recipe_app_backend/app/storage.py:168-178 | after delete the token no longer resolves and other tokens resolve as before |
| Sessions.LogoutIdempotent | recipe_app_backend/app/storage.py:175-178 | deleting a token twice equals deleting it once |
| Sessions.SameTokenOverwrites | recipe_app_backend/app/storage.py:161-163 | a second create under the same token replaces the first record |
| Schemas.ValidPagination | recipe_app_backend/app/schemas.py:17-20 | accepted pagination: a page of at least 1 and a page size from 1 to 100 |
| Schemas.ValidCreate | recipe_app_backend/app/schemas.py:23-28 | the create body: title given with 1..200 characters, ingredients given, description at most 2000 and instructions at most 10000 characters when given, tags unconstrained |
| Schemas.ValidUpdate | recipe_app_backend/app/schemas.py:35-40 | the update body: every field optional; a given title has 1..200 characters; description at most 2000 and instructions at most 10000 characters when given |
| Schemas.ValidatePagination | recipe_app_backend/app/schemas.py:13-20 | accepted iff `page >= 1` and `1 <= page_size <= 100`; a bad page is reported first, under `page`, then a bad size under `page_size` |
| Schemas.DefaultsAccepted | recipe_app_backend/app/schemas.py:8-16 | omitted parameters load as page 1 and size 10, and those pass validation |
| Schemas.AcceptedPaginationIsNotClamped | recipe_app_backend/app/schemas.py:17-20 | any pagination the validator accepts is left as is by the listing's clamping (storage.py lines 78-79), so the response echoes it |
| Schemas.LoadCreate | recipe_app_backend/app/schemas.py:23-28 | description and instructions default to "" and tags to [] when omitted; title, ingredients and every given field pass through unchanged; a valid body stays valid after loading |
| Schemas.LoadDefaultsMatchStorage | recipe_app_backend/app/schemas.py:25-28 | the schema defaults and the storage defaults agree, so loading first does not change what create stores |
| Schemas.ValidCreateStoresWellFormed | recipe_app_backend/app/schemas.py:23-28 | a body with a 1..200 character title, ingredients, and description and instructions within 2000 and 10000 characters is stored as a recipe within those bounds |
| Schemas.ValidUpdateKeepsWellFormed | recipe_app_backend/app/schemas.py:35-40 | an update whose given fields obey the create bounds keeps every stored recipe within those bounds |

## Left out

- File I/O, JSON encoding and decoding, the temporary file and `os.replace`, and directory creation: the file is the abstract value `Option<RawDoc>`; JSON values of the wrong type inside a parsed object are not modelled.
- A store file whose top-level JSON value is not an object (a list or a string that contains both key names) passes the key test at storage.py:26 and makes the later `data["recipes"]` or `data.get` raise; the model has no such file, and treats every unusable file as absent.
- Extra top-level keys in the store file survive create, update and delete, because the whole parsed object is written back (storage.py:119-121, 134-135, 146-148); `RawDoc` holds only the two keys the store uses, so this is not modelled.
- The store lock and the session lock: each modelled call is one atomic step, which is what the locks provide.
- `time.time()`: the clock reading is the parameter `now`.
- The token format `token_{user_id}_{seconds}`: the token is a parameter; that one user logging in twice in the same second gets the same token is covered only as "create overwrites an existing token" (`Sessions.SameTokenOverwrites`).
- Text.Lower: models `str.lower()` on ASCII letters only; the Unicode case mapping of other letters is not modelled.
- Recipes read from the file are assumed to carry every key; the `setdefault` calls of `_normalize_recipe` on a stored recipe missing a key (and the `(x or "")` guards for `None` values) are not modelled.
- Keys other than the eight recipe keys in a request body cannot be expressed, and marshmallow's own loading, type checks and unknown-field handling are not modelled: only the presence and length rules are.
- The Flask routes, response envelopes and HTTP error handlers, and the login/logout/me endpoints (including the 404/401 decisions they make on a `None` result).
- `int(data.get("next_id", 1))` coercions: the counter is an integer in the model.

=== FILE: model.dfy ===
/**
 * The entities of the recipe store: a stored recipe, the partial recipe a
 * caller hands to create/update, and the store document with its id counter.
 */
module Model {
  import opened Wrappers

  /** One stored recipe; timestamps are whole Unix seconds. */
  datatype Recipe = Recipe(
    id: int,
    title: string,
    description: string,
    ingredients: seq<string>,
    instructions: string,
    tags: seq<string>,
    createdAt: int,
    updatedAt: int)

  /**
   * A partial recipe as a request dictionary: every key may be missing.
   * It carries the bookkeeping keys as well, so that the model can show
   * that create overwrites them and update ignores them.
   */
  datatype Patch = Patch(
    id: Option<int>,
    title: Option<string>,
    description: Option<string>,
    ingredients: Option<seq<string>>,
    instructions: Option<string>,
    tags: Option<seq<string>>,
    createdAt: Option<int>,
    updatedAt: Option<int>)

  /** The persisted document: every recipe in insertion order and the next id to hand out. */
  datatype Doc = Doc(recipes: seq<Recipe>, nextId: int)

  /** No two recipes share an id. */
  predicate IdsDistinct(rs: seq<Recipe>) {
    forall i, j :: 0 <= i < j < |rs| ==> rs[i].id != rs[j].id
  }

  /** Every id is strictly below `bound`. */
  predicate IdsBelow(rs: seq<Recipe>, bound: int) {
    forall i :: 0 <= i < |rs| ==> rs[i].id < bound
  }

  /** The store invariant: ids are unique and `nextId` exceeds every id in use. */
  predicate Valid(d: Doc) {
    IdsDistinct(d.recipes) && IdsBelow(d.recipes, d.nextId)
  }

  /** Some stored recipe has id `id`. */
  predicate HasId(rs: seq<Recipe>, id: int) {
    exists i :: 0 <= i < |rs| && rs[i].id == id
  }

  /** The document used whenever the file is absent or unusable. */
  const EmptyDoc: Doc := Doc([], 1)
}

=== FILE: persistence.dfy ===
/**
 * The persisted store file, reduced to what the repository observes: a
 * parsed JSON object that may lack either key, or nothing at all when the
 * file is absent, unreadable or not valid JSON.
 */
module Persistence {
  import opened Wrappers
  import opened Model

  /** A parsed JSON object; a key the file lacks is `None`. */
  datatype RawDoc = RawDoc(recipes: Option<seq<Recipe>>, nextId: Option<int>)

  /** The file is unusable: absent or unparsable, or an object missing one of the two keys. */
  predicate FallsBack(file: Option<RawDoc>) {
    file.None? || file.value.recipes.None? || file.value.nextId.None?
  }

  /**
   * Reading the file: an absent or unparsable file (`None`) or an object
   * missing `recipes` or `next_id` yields the empty document; anything else
   * is taken as it stands.
   */
  function ReadFile(file: Option<RawDoc>): (d: Doc)
    ensures file.None? ==> d == EmptyDoc
    ensures file.Some? && (file.value.recipes.None? || file.value.nextId.None?) ==> d == EmptyDoc
    ensures file.Some? && file.value.recipes.Some? && file.value.nextId.Some? ==>
              d.recipes == file.value.recipes.value && d.nextId == file.value.nextId.value
  {
    match file
    case None => EmptyDoc
    case Some(raw) =>
      if raw.recipes.None? || raw.nextId.None? then EmptyDoc
      else Doc(raw.recipes.value, raw.nextId.value)
  }

  /** Writing the file: both keys are always present. */
  function WriteFile(d: Doc): (raw: RawDoc)
    ensures raw.recipes.Some? && raw.nextId.Some?
  {
    RawDoc(Some(d.recipes), Some(d.nextId))
  }

  /** Reading back what was written gives the same document. */
  lemma ReadAfterWrite(d: Doc)
    ensures ReadFile(Some(WriteFile(d))) == d
  {
  }

  /** A file holding both keys is written back unchanged after a read. */
  lemma WriteAfterRead(raw: RawDoc)
    requires raw.recipes.Some? && raw.nextId.Some?
    ensures WriteFile(ReadFile(Some(raw))) == raw
  {
  }

  /** The fallback document satisfies the store invariant. */
  lemma EmptyDocValid()
    ensures Valid(EmptyDoc)
    ensures EmptyDoc.recipes == [] && EmptyDoc.nextId == 1
  {
  }
}

=== FILE: query.dfy ===
/**
 * `list_recipes`: the case-insensitive search over titles and ingredients,
 * the ingredient filter, and the clamped pagination with its `meta` record.
 */
module Query {
  import opened Wrappers
  import opened Text
  import opened Seqs
  import opened Model

  /** Python truthiness of an optional string: present and non-empty. */
  predicate Active(q: Option<string>) {
    q.Some? && |q.value| > 0
  }

  /** Some ingredient, lower-cased, contains the (already lower-cased) needle. */
  predicate SomeIngredientContains(ingredients: seq<string>, needle: string) {
    exists k :: 0 <= k < |ingredients| && Contains(Lower(ingredients[k]), needle)
  }

  /** The search test: the needle occurs in the lower-cased title or in some lower-cased ingredient. */
  predicate MatchesQuery(r: Recipe, needle: string) {
    Contains(Lower(r.title), needle) || SomeIngredientContains(r.ingredients, needle)
  }

  /** The ingredient test: the needle occurs in some lower-cased ingredient. */
  predicate MatchesIngredient(r: Recipe, needle: string) {
    SomeIngredientContains(r.ingredients, needle)
  }

  /** The search step: skipped when `q` is missing or empty. */
  function FilterByQuery(rs: seq<Recipe>, q: Option<string>): (out: seq<Recipe>)
    ensures !Active(q) ==> out == rs
    ensures Active(q) ==> forall r :: r in out <==> r in rs && MatchesQuery(r, Lower(q.value))
  {
    if Active(q) then Filter(rs, r => MatchesQuery(r, Lower(q.value)))
    else rs
  }

  /** The ingredient step: skipped when `ingredient` is missing or empty. */
  function FilterByIngredient(rs: seq<Recipe>, ingredient: Option<string>): (out: seq<Recipe>)
    ensures !Active(ingredient) ==> out == rs
    ensures Active(ingredient) ==>
              forall r :: r in out <==> r in rs && MatchesIngredient(r, Lower(ingredient.value))
  {
    if Active(ingredient) then Filter(rs, r => MatchesIngredient(r, Lower(ingredient.value)))
    else rs
  }

  /** Both steps in the order the listing applies them. */
  function Search(rs: seq<Recipe>, q: Option<string>, ingredient: Option<string>): seq<Recipe> {
    FilterByIngredient(FilterByQuery(rs, q), ingredient)
  }

  /** The recipe passes every active test. */
  predicate Selected(r: Recipe, q: Option<string>, ingredient: Option<string>) {
    && (Active(q) ==> MatchesQuery(r, Lower(q.value)))
    && (Active(ingredient) ==> MatchesIngredient(r, Lower(ingredient.value)))
  }

  /** `page = max(1, page)`. */
  function ClampPage(page: int): (p: int)
    ensures p >= 1
    ensures p >= page
    ensures page >= 1 ==> p == page
    ensures page < 1 ==> p == 1
  {
    if page < 1 then 1 else page
  }

  /** The largest page size a listing serves. */
  const MaxPageSize: int := 100

  /** `page_size = min(max(1, page_size), 100)`. */
  function ClampPageSize(pageSize: int): (ps: int)
    ensures 1 <= ps <= MaxPageSize
    ensures 1 <= pageSize <= MaxPageSize ==> ps == pageSize
    ensures pageSize < 1 ==> ps == 1
    ensures pageSize > MaxPageSize ==> ps == MaxPageSize
  {
    if pageSize < 1 then 1 else if pageSize > MaxPageSize then MaxPageSize else pageSize
  }

  /** The pagination block of a listing response. */
  datatype Meta = Meta(
    total: nat,
    totalPages: nat,
    firstPage: int,
    lastPage: int,
    page: int,
    previousPage: Option<int>,
    nextPage: Option<int>,
    pageSize: int)

  /** One page of results together with its meta record. */
  datatype Listing = Listing(items: seq<Recipe>, meta: Meta)

  function Min(a: int, b: int): int {
    if a <= b then a else b
  }

  /** Python's `(total + ps - 1) // ps` for a positive `ps`. */
  function PageCount(total: nat, ps: int): (n: nat)
    requires ps >= 1
    ensures (n - 1) * ps < total <= n * ps
    ensures n == 0 <==> total == 0
  {
    var n := (total + ps - 1) / ps;
    DivBounds(total + ps - 1, ps);
    if n > 0 then MulMonotone(1, n, ps); n else n
  }

  lemma MulMonotone(a: int, b: int, c: int)
    requires a <= b && c >= 0
    ensures a * c <= b * c
  {
  }

  lemma NextPageStart(n: int, ps: int)
    requires ps >= 1
    ensures (n - 1) * ps + ps == n * ps
  {
  }

  /** Bounds of Euclidean division by a positive divisor. */
  lemma DivBounds(a: nat, b: int)
    requires b >= 1
    ensures (a / b) * b <= a < (a / b) * b + b
  {
  }

  /** Offset of the first item of page `p`: `(p - 1) * ps`. */
  function PageStart(p: int, ps: int): (start: int)
    requires p >= 1 && ps >= 1
    ensures start == (p - 1) * ps
    ensures 0 <= start && start + ps == p * ps
  {
    MulMonotone(0, p - 1, ps);
    (p - 1) * ps
  }

  /**
   * Paginates an already filtered sequence: clamps `page` and `pageSize`,
   * slices `[(page-1)*pageSize, page*pageSize)` (Python slicing: truncated
   * at the end, empty when it starts past the end) and fills in `meta`.
   */
  function Paginate(rs: seq<Recipe>, page: int, pageSize: int): (res: Listing)
    ensures 1 <= res.meta.page && 1 <= res.meta.pageSize <= MaxPageSize
    ensures res.meta.page == ClampPage(page) && res.meta.pageSize == ClampPageSize(pageSize)
    ensures res.meta.total == |rs|
    ensures res.meta.totalPages == 0 <==> |rs| == 0
    ensures |res.items| <= res.meta.pageSize
    ensures var start := (res.meta.page - 1) * res.meta.pageSize;
            && 0 <= start
            && (start >= |rs| ==> res.items == [])
            && (start < |rs| ==> |res.items| == Min(res.meta.pageSize, |rs| - start))
            && (forall k :: 0 <= k < |res.items| ==> start + k < |rs| && res.items[k] == rs[start + k])
    ensures (res.meta.totalPages - 1) * res.meta.pageSize < |rs| <= res.meta.totalPages * res.meta.pageSize
    ensures res.meta.firstPage == 1
    ensures res.meta.lastPage == if res.meta.totalPages > 0 then res.meta.totalPages else 1
    ensures res.meta.previousPage.None? <==> res.meta.page == 1
    ensures res.meta.previousPage.Some? ==> res.meta.previousPage.value == res.meta.page - 1
    ensures res.meta.nextPage.Some? <==> res.meta.page * res.meta.pageSize < |rs|
    ensures res.meta.nextPage.Some? ==> res.meta.nextPage.value == res.meta.page + 1
  {
    var p := ClampPage(page);
    var ps := ClampPageSize(pageSize);
    var total := |rs|;
    var start := PageStart(p, ps);
    var end := start + ps;
    var items := rs[Min(start, total)..Min(end, total)];
    var totalPages := PageCount(total, ps);
    var meta := Meta(
      total, totalPages, 1, if totalPages > 0 then totalPages else 1, p,
      if p > 1 then Some(p - 1) else None,
      if end < total then Some(p + 1) else None,
      ps);
    Listing(items, meta)
  }

  /** `list_recipes` over a document: search, then ingredient filter, then paginate. */
  function ListRecipes(d: Doc, q: Option<string>, ingredient: Option<string>, page: int, pageSize: int): (res: Listing)
    ensures res.meta.total == |Search(d.recipes, q, ingredient)|
    ensures forall r :: r in res.items ==> r in d.recipes && Selected(r, q, ingredient)
  {
    Paginate(Search(d.recipes, q, ingredient), page, pageSize)
  }
}

module QueryProperties {
  import opened Wrappers
  import opened Text
  import opened Seqs
  import opened Model
  import opened Query

  /** A recipe is listed by the search exactly when it is stored and passes every active test. */
  lemma SearchSelectsExactly(rs: seq<Recipe>, q: Option<string>, ingredient: Option<string>)
    ensures forall r :: r in Search(rs, q, ingredient) <==> r in rs && Selected(r, q, ingredient)
  {
  }

  /** The search keeps the stored order: its result is a subsequence of the stored recipes. */
  lemma {:induction false} SearchKeepsOrder(rs: seq<Recipe>, q: Option<string>, ingredient: Option<string>)
    ensures IsSubsequence(Search(rs, q, ingredient), rs)
  {
    var afterQ := FilterByQuery(rs, q);
    if Active(q) {
      FilterIsSubsequence(rs, r => MatchesQuery(r, Lower(q.value)));
    } else {
      SubsequenceReflexive(rs);
    }
    if Active(ingredient) {
      FilterIsSubsequence(afterQ, r => MatchesIngredient(r, Lower(ingredient.value)));
      SubsequenceTransitive(Search(rs, q, ingredient), afterQ, rs);
    }
  }

  lemma {:induction false} SubsequenceReflexive(s: seq<Recipe>)
    ensures IsSubsequence(s, s)
    decreases |s|
  {
    if |s| > 0 {
      SubsequenceReflexive(s[1..]);
    }
  }

  lemma {:induction false} SubsequenceTransitive(a: seq<Recipe>, b: seq<Recipe>, c: seq<Recipe>)
    requires IsSubsequence(a, b) && IsSubsequence(b, c)
    ensures IsSubsequence(a, c)
    decreases |c|
  {
    if |a| > 0 {
      assert |b| > 0 && |c| > 0;
      if b[0] == c[0] && IsSubsequence(b[1..], c[1..]) {
        if a[0] == b[0] && IsSubsequence(a[1..], b[1..]) {
          SubsequenceTransitive(a[1..], b[1..], c[1..]);
        } else {
          SubsequenceTransitive(a, b[1..], c[1..]);
        }
      } else {
        SubsequenceTransitive(a, b, c[1..]);
      }
    }
  }

  /** With both filters active, the listing filters once by the conjunction of the two tests. */
  lemma BothFiltersConjoin(rs: seq<Recipe>, q: string, ingredient: string)
    requires |q| > 0 && |ingredient| > 0
    ensures Search(rs, Some(q), Some(ingredient))
            == Filter(rs, r => MatchesQuery(r, Lower(q)) && MatchesIngredient(r, Lower(ingredient)))
  {
    FilterTwice(rs, r => MatchesQuery(r, Lower(q)), r => MatchesIngredient(r, Lower(ingredient)),
                r => MatchesQuery(r, Lower(q)) && MatchesIngredient(r, Lower(ingredient)));
  }

  /** Search terms that lower-case alike give the same listing. */
  lemma CaseInsensitive(d: Doc, q1: string, q2: string, ingredient: Option<string>, page: int, pageSize: int)
    requires Lower(q1) == Lower(q2)
    ensures ListRecipes(d, Some(q1), ingredient, page, pageSize) == ListRecipes(d, Some(q2), ingredient, page, pageSize)
  {
  }

  /** The slice a page shows, in Python slicing terms. */
  lemma PageSlice(rs: seq<Recipe>, page: int, pageSize: int)
    ensures var m := Paginate(rs, page, pageSize).meta;
            var start := (m.page - 1) * m.pageSize;
            Paginate(rs, page, pageSize).items == rs[Min(start, |rs|)..Min(start + m.pageSize, |rs|)]
  {
  }

  /** There is a next page exactly when the current page is not the last one. */
  lemma NextPageIffNotLast(rs: seq<Recipe>, page: int, pageSize: int)
    ensures var m := Paginate(rs, page, pageSize).meta;
            m.nextPage.Some? <==> m.page < m.totalPages
  {
    var m := Paginate(rs, page, pageSize).meta;
    var p, ps, n := m.page, m.pageSize, m.totalPages;
    if p < n {
      MulMonotone(p, n - 1, ps);
    } else {
      MulMonotone(n, p, ps);
    }
  }

  /** Pages 1..n of the same page size, concatenated. */
  function Pages(rs: seq<Recipe>, pageSize: int, n: nat): seq<Recipe> {
    if n == 0 then [] else Pages(rs, pageSize, n - 1) + Paginate(rs, n, pageSize).items
  }

  /** The first n pages together are the first n * pageSize results. */
  lemma {:induction false} PagesArePrefix(rs: seq<Recipe>, pageSize: int, n: nat)
    ensures Pages(rs, pageSize, n) == rs[..Min(n * ClampPageSize(pageSize), |rs|)]
  {
    if n > 0 {
      var ps := ClampPageSize(pageSize);
      PagesArePrefix(rs, pageSize, n - 1);
      NthPage(rs, pageSize, n);
      PrefixThenSlice(rs, Min((n - 1) * ps, |rs|), Min(n * ps, |rs|));
    }
  }

  lemma PrefixThenSlice(s: seq<Recipe>, a: int, b: int)
    requires 0 <= a <= b <= |s|
    ensures s[..a] + s[a..b] == s[..b]
  {
  }

  /** Page n (n >= 1) is the slice between the ends of pages n-1 and n. */
  lemma NthPage(rs: seq<Recipe>, pageSize: int, n: nat)
    requires n > 0
    ensures var ps := ClampPageSize(pageSize);
            && Min((n - 1) * ps, |rs|) <= Min(n * ps, |rs|)
            && Paginate(rs, n, pageSize).items == rs[Min((n - 1) * ps, |rs|)..Min(n * ps, |rs|)]
  {
    var ps := ClampPageSize(pageSize);
    PageSlice(rs, n, pageSize);
    NextPageStart(n, ps);
  }

  /** Walking every page from 1 to `total_pages` yields each result exactly once, in order. */
  lemma PagesCoverResults(rs: seq<Recipe>, pageSize: int)
    ensures Pages(rs, pageSize, Paginate(rs, 1, pageSize).meta.totalPages) == rs
  {
    var m := Paginate(rs, 1, pageSize).meta;
    var n, ps := m.totalPages, m.pageSize;
    assert ps == ClampPageSize(pageSize) && |rs| <= n * ps;
    PagesArePrefix(rs, pageSize, n);
    assert Min(n * ps, |rs|) == |rs|;
    assert rs[..|rs|] == rs;
  }

  /** 25 results at 10 per page: 3 pages; page 1 is full with a next page, page 3 holds 5 and has none. */
  lemma TwentyFiveByTen(rs: seq<Recipe>)
    requires |rs| == 25
    ensures Paginate(rs, 1, 10).meta.totalPages == 3
    ensures |Paginate(rs, 1, 10).items| == 10
    ensures Paginate(rs, 1, 10).meta.nextPage == Some(2)
    ensures Paginate(rs, 1, 10).meta.previousPage == None
    ensures |Paginate(rs, 3, 10).items| == 5
    ensures Paginate(rs, 3, 10).meta.nextPage == None
    ensures Paginate(rs, 3, 10).meta.previousPage == Some(2)
    ensures Paginate(rs, 3, 10).meta.lastPage == 3
  {
  }
  /** A recipe titled "Tomato Soup" with tomato and basil matches q="tomato" with ingredient="basil", and not q="pasta". */
  lemma TomatoSoupExample()
    ensures var r := Recipe(1, "Tomato Soup", "", ["tomato", "basil"], "", [], 0, 0);
            && Selected(r, Some("tomato"), Some("basil"))
            && !Selected(r, Some("pasta"), None)
  {
    var r := Recipe(1, "Tomato Soup", "", ["tomato", "basil"], "", [], 0, 0);
    SampleLowerCase();
    assert OccursAt(Lower(r.title), "tomato", 0);
    assert OccursAt(Lower(r.ingredients[1]), "basil", 0);
    PastaMissesTomatoSoup();
  }

  /** The lower-cased forms of the example's strings. */
  lemma SampleLowerCase()
    ensures Lower("Tomato Soup") == "tomato soup"
    ensures Lower("tomato") == "tomato" && Lower("basil") == "basil" && Lower("pasta") == "pasta"
  {
  }

  /** "pasta" occurs in neither the title nor any ingredient of the example recipe. */
  lemma PastaMissesTomatoSoup()
    ensures !Contains("tomato soup", "pasta")
    ensures !Contains("tomato", "pasta") && !Contains("basil", "pasta")
  {
    MismatchNotContained("tomato soup", "pasta", 0);
    MismatchNotContained("tomato", "pasta", 0);
    MismatchNotContained("basil", "pasta", 0);
  }
}

=== FILE: repository.dfy ===
/**
 * The recipe repository operations of the store, as pure functions from the
 * document read from the file to the document written back and the result.
 * The current time `now` is a parameter.
 */
module Repository {
  import opened Wrappers
  import opened Seqs
  import opened Model

  /** The linear scan: index of the first recipe at or after `from` whose id is `id`. */
  function FindFrom(rs: seq<Recipe>, id: int, from: nat): (r: Option<nat>)
    requires from <= |rs|
    ensures r.Some? ==> from <= r.value < |rs| && rs[r.value].id == id
    ensures r.Some? ==> forall j :: from <= j < r.value ==> rs[j].id != id
    ensures r.None? ==> forall j :: from <= j < |rs| ==> rs[j].id != id
    decreases |rs| - from
  {
    if from == |rs| then None
    else if rs[from].id == id then Some(from)
    else FindFrom(rs, id, from + 1)
  }

  /** Index of the first recipe whose id is `id`, if any. */
  function FindIndex(rs: seq<Recipe>, id: int): (r: Option<nat>)
    ensures r.Some? <==> HasId(rs, id)
    ensures r.Some? ==> r.value < |rs| && rs[r.value].id == id
    ensures r.Some? ==> forall j :: 0 <= j < r.value ==> rs[j].id != id
  {
    FindFrom(rs, id, 0)
  }

  /** `get_recipe`: the first recipe with the requested id, or `None`. */
  function GetRecipe(d: Doc, id: int): (r: Option<Recipe>)
    ensures r.Some? <==> HasId(d.recipes, id)
    ensures r.Some? ==> r.value in d.recipes && r.value.id == id
    ensures r.Some? ==> exists i :: 0 <= i < |d.recipes| && d.recipes[i] == r.value
                                    && forall j :: 0 <= j < i ==> d.recipes[j].id != id
  {
    match FindIndex(d.recipes, id)
    case None => None
    case Some(i) => Some(d.recipes[i])
  }

  /**
   * `_normalize_recipe` followed by the assignments of `create_recipe`:
   * missing text fields become "", missing lists become [], and whatever
   * id or timestamps the caller sent are replaced.
   */
  function NewRecipe(p: Patch, id: int, now: int): (r: Recipe)
    ensures r.id == id && r.createdAt == now && r.updatedAt == now
    ensures r.title == (if p.title.Some? then p.title.value else "")
    ensures r.description == (if p.description.Some? then p.description.value else "")
    ensures r.ingredients == (if p.ingredients.Some? then p.ingredients.value else [])
    ensures r.instructions == (if p.instructions.Some? then p.instructions.value else "")
    ensures r.tags == (if p.tags.Some? then p.tags.value else [])
  {
    Recipe(id, p.title.GetOr(""), p.description.GetOr(""), p.ingredients.GetOr([]),
           p.instructions.GetOr(""), p.tags.GetOr([]), now, now)
  }

  /** The result of `create_recipe`: the document to write and the recipe returned. */
  datatype Created = Created(doc: Doc, recipe: Recipe)

  /** `create_recipe`: the new recipe takes `next_id`, is appended, and the counter moves on. */
  function CreateRecipe(d: Doc, p: Patch, now: int): (res: Created)
    ensures res.recipe.id == d.nextId
    ensures res.doc.nextId == d.nextId + 1
    ensures |res.doc.recipes| == |d.recipes| + 1
    ensures res.doc.recipes[..|d.recipes|] == d.recipes
    ensures res.doc.recipes[|d.recipes|] == res.recipe
    ensures res.recipe == NewRecipe(p, d.nextId, now)
  {
    var r := NewRecipe(p, d.nextId, now);
    var rs := d.recipes + [r];
    assert rs[..|d.recipes|] == d.recipes;
    Created(Doc(rs, r.id + 1), r)
  }

  /**
   * The merge of `update_recipe`: only the five whitelisted keys the patch
   * carries are copied; `updated_at` becomes `now`; id and `created_at`
   * stay, whatever the patch says about them.
   */
  function Merge(r: Recipe, p: Patch, now: int): (m: Recipe)
    ensures m.id == r.id && m.createdAt == r.createdAt && m.updatedAt == now
    ensures m.title == (if p.title.Some? then p.title.value else r.title)
    ensures m.description == (if p.description.Some? then p.description.value else r.description)
    ensures m.ingredients == (if p.ingredients.Some? then p.ingredients.value else r.ingredients)
    ensures m.instructions == (if p.instructions.Some? then p.instructions.value else r.instructions)
    ensures m.tags == (if p.tags.Some? then p.tags.value else r.tags)
  {
    r.(title := p.title.GetOr(r.title),
       description := p.description.GetOr(r.description),
       ingredients := p.ingredients.GetOr(r.ingredients),
       instructions := p.instructions.GetOr(r.instructions),
       tags := p.tags.GetOr(r.tags),
       updatedAt := now)
  }

  /** The result of `update_recipe`: the document after the call and the updated recipe, if any. */
  datatype Updated = Updated(doc: Doc, recipe: Option<Recipe>)

  /** `update_recipe`: merges the patch into the first recipe with the id, or reports `None`. */
  function UpdateRecipe(d: Doc, id: int, p: Patch, now: int): (res: Updated)
    ensures res.recipe.None? <==> !HasId(d.recipes, id)
    ensures res.recipe.None? ==> res.doc == d
    ensures res.doc.nextId == d.nextId
    ensures res.recipe.Some? ==>
              && GetRecipe(d, id).Some?
              && res.recipe.value == Merge(GetRecipe(d, id).value, p, now)
              && exists i :: && 0 <= i < |d.recipes| && d.recipes[i].id == id
                             && (forall j :: 0 <= j < i ==> d.recipes[j].id != id)
                             && res.doc.recipes == d.recipes[i := res.recipe.value]
  {
    match FindIndex(d.recipes, id)
    case None => Updated(d, None)
    case Some(i) =>
      var m := Merge(d.recipes[i], p, now);
      Updated(Doc(d.recipes[i := m], d.nextId), Some(m))
  }

  /** The result of `delete_recipe`: the document after the call and whether a recipe was removed. */
  datatype Deleted = Deleted(doc: Doc, removed: bool)

  /**
   * `delete_recipe`: keeps the recipes whose id differs and reports a
   * removal when the list got shorter.
   */
  function DeleteRecipe(d: Doc, id: int): (res: Deleted)
    ensures res.removed <==> HasId(d.recipes, id)
    ensures !HasId(res.doc.recipes, id)
    ensures forall r :: r in res.doc.recipes <==> r in d.recipes && r.id != id
    ensures res.doc.nextId == d.nextId
    ensures !res.removed ==> res.doc == d
  {
    var kept := Filter(d.recipes, (r: Recipe) => r.id != id);
    DropIdFacts(d.recipes, id);
    if |kept| < |d.recipes| then Deleted(Doc(kept, d.nextId), true)
    else Deleted(d, false)
  }

  /** What filtering out one id does to a list of recipes. */
  lemma DropIdFacts(rs: seq<Recipe>, id: int)
    ensures var kept := Filter(rs, (r: Recipe) => r.id != id);
            && !HasId(kept, id)
            && (|kept| < |rs| <==> HasId(rs, id))
            && (|kept| == |rs| ==> kept == rs)
  {
    var keep := (r: Recipe) => r.id != id;
    var kept := Filter(rs, keep);
    forall i | 0 <= i < |kept|
      ensures kept[i].id != id
    {
      assert kept[i] in kept;
    }
    FilterShrinks(rs, keep);
    assert (exists i :: 0 <= i < |rs| && !keep(rs[i])) <==> HasId(rs, id);
    if |kept| == |rs| {
      FilterKeepsAll(rs, keep);
    }
  }
}

/** The store invariant and the lookup guarantees each repository operation keeps. */
module RepositoryProperties {
  import opened Wrappers
  import opened Seqs
  import opened Model
  import opened Repository

  /** Under the invariant, lookup returns the one recipe carrying the id. */
  lemma GetFindsTheRecipe(d: Doc, i: int)
    requires Valid(d)
    requires 0 <= i < |d.recipes|
    ensures GetRecipe(d, d.recipes[i].id) == Some(d.recipes[i])
  {
  }

  /** Creating keeps ids unique and below the counter. */
  lemma CreatePreservesValid(d: Doc, p: Patch, now: int)
    requires Valid(d)
    ensures Valid(CreateRecipe(d, p, now).doc)
  {
  }

  /** The recipe just created is what lookup returns for its id, and the id was unused before. */
  lemma CreateThenGet(d: Doc, p: Patch, now: int)
    requires Valid(d)
    ensures !HasId(d.recipes, d.nextId)
    ensures var c := CreateRecipe(d, p, now); GetRecipe(c.doc, c.recipe.id) == Some(c.recipe)
  {
  }

  /** Keys outside the whitelist (id, created_at, updated_at) have no effect on create or update. */
  lemma BookkeepingKeysIgnored(r: Recipe, p: Patch, id: int, now: int, fakeId: Option<int>, fakeCreated: Option<int>, fakeUpdated: Option<int>)
    ensures var p' := p.(id := fakeId, createdAt := fakeCreated, updatedAt := fakeUpdated);
            && NewRecipe(p', id, now) == NewRecipe(p, id, now)
            && Merge(r, p', now) == Merge(r, p, now)
  {
  }

  /** Re-sending the same update changes nothing but the update time. */
  lemma MergeIdempotent(r: Recipe, p: Patch, t1: int, t2: int)
    ensures Merge(Merge(r, p, t1), p, t2) == Merge(r, p, t2)
  {
  }

  /** An update with no fields only refreshes `updated_at`. */
  lemma EmptyPatchTouchesOnlyTime(r: Recipe, now: int)
    ensures Merge(r, Patch(None, None, None, None, None, None, None, None), now) == r.(updatedAt := now)
  {
  }

  /** Updating keeps ids unique and below the counter. */
  lemma UpdatePreservesValid(d: Doc, id: int, p: Patch, now: int)
    requires Valid(d)
    ensures Valid(UpdateRecipe(d, id, p, now).doc)
  {
  }

  /** Recipes with another id are left exactly as they were by an update. */
  lemma UpdateLeavesOthers(d: Doc, id: int, p: Patch, now: int)
    ensures var u := UpdateRecipe(d, id, p, now);
            && |u.doc.recipes| == |d.recipes|
            && forall j :: 0 <= j < |d.recipes| && d.recipes[j].id != id ==> u.doc.recipes[j] == d.recipes[j]
  {
  }

  /** After an update, lookup returns the updated recipe. */
  lemma UpdateThenGet(d: Doc, id: int, p: Patch, now: int)
    ensures var u := UpdateRecipe(d, id, p, now); u.recipe.Some? ==> GetRecipe(u.doc, id) == u.recipe
  {
    var u := UpdateRecipe(d, id, p, now);
    if u.recipe.Some? {
      var i :| && 0 <= i < |d.recipes| && d.recipes[i].id == id
               && (forall j :: 0 <= j < i ==> d.recipes[j].id != id)
               && u.doc.recipes == d.recipes[i := u.recipe.value];
      assert u.doc.recipes[i].id == id;
      var k := FindIndex(u.doc.recipes, id).value;
      assert !(k < i) && !(i < k);
    }
  }

  /** Deleting keeps ids unique and below the counter. */
  lemma DeletePreservesValid(d: Doc, id: int)
    requires Valid(d)
    ensures Valid(DeleteRecipe(d, id).doc)
  {
    var keep := (r: Recipe) => r.id != id;
    DistinctFilter(d.recipes, keep);
    var rs := DeleteRecipe(d, id).doc.recipes;
    assert forall i :: 0 <= i < |rs| ==> rs[i] in d.recipes;
  }

  lemma {:induction false} DistinctFilter(rs: seq<Recipe>, keep: Recipe -> bool)
    requires IdsDistinct(rs)
    ensures IdsDistinct(Filter(rs, keep))
    decreases |rs|
  {
    if |rs| > 0 {
      var tail := Filter(rs[1..], keep);
      DistinctFilter(rs[1..], keep);
      if keep(rs[0]) {
        forall x | x in tail
          ensures x.id != rs[0].id
        {
          var k :| 0 <= k < |rs[1..]| && rs[1..][k] == x;
          assert rs[k + 1] == x;
        }
        ConsDistinct(rs[0], tail);
      }
    }
  }

  lemma ConsDistinct(r: Recipe, rs: seq<Recipe>)
    requires IdsDistinct(rs)
    requires forall x :: x in rs ==> x.id != r.id
    ensures IdsDistinct([r] + rs)
  {
    var s := [r] + rs;
    forall i, j | 0 <= i < j < |s|
      ensures s[i].id != s[j].id
    {
      assert s[j] == rs[j - 1];
      if i > 0 {
        assert s[i] == rs[i - 1];
      }
    }
  }

  /** The recipes that survive a delete keep their order. */
  lemma DeleteKeepsOrder(d: Doc, id: int)
    ensures IsSubsequence(DeleteRecipe(d, id).doc.recipes, d.recipes)
  {
    var keep := (r: Recipe) => r.id != id;
    if DeleteRecipe(d, id).removed {
      FilterIsSubsequence(d.recipes, keep);
    } else {
      FilterKeepsAll(d.recipes, keep);
      FilterIsSubsequence(d.recipes, keep);
    }
  }

  /** A second delete of the same id finds nothing and changes nothing. */
  lemma DeleteTwice(d: Doc, id: int)
    ensures var once := DeleteRecipe(d, id).doc;
            !DeleteRecipe(once, id).removed && DeleteRecipe(once, id).doc == once
  {
  }

  /** Under the invariant a successful delete removes exactly one recipe. */
  lemma DeleteRemovesOne(d: Doc, id: int)
    requires Valid(d)
    ensures DeleteRecipe(d, id).removed ==> |DeleteRecipe(d, id).doc.recipes| == |d.recipes| - 1
  {
    if DeleteRecipe(d, id).removed {
      CountOneMismatch(d.recipes, id);
    }
  }

  lemma {:induction false} CountOneMismatch(rs: seq<Recipe>, id: int)
    requires IdsDistinct(rs) && HasId(rs, id)
    ensures CountKept(rs, (r: Recipe) => r.id != id) == |rs| - 1
    decreases |rs|
  {
    var keep := (r: Recipe) => r.id != id;
    if rs[0].id == id {
      assert forall i :: 0 <= i < |rs[1..]| ==> keep(rs[1..][i]);
      FilterKeepsAll(rs[1..], keep);
    } else {
      var i :| 0 <= i < |rs| && rs[i].id == id;
      assert rs[1..][i - 1].id == id;
      CountOneMismatch(rs[1..], id);
    }
  }

  /** A mutating request to the repository. */
  datatype Op =
    | Create(patch: Patch, now: int)
    | Update(id: int, patch: Patch, now: int)
    | Delete(id: int)

  /** The document after applying one request. */
  function Apply(d: Doc, op: Op): Doc {
    match op
    case Create(p, now) => CreateRecipe(d, p, now).doc
    case Update(id, p, now) => UpdateRecipe(d, id, p, now).doc
    case Delete(id) => DeleteRecipe(d, id).doc
  }

  /** The document after applying a sequence of requests in order. */
  function ApplyAll(d: Doc, ops: seq<Op>): Doc
    decreases |ops|
  {
    if |ops| == 0 then d else ApplyAll(Apply(d, ops[0]), ops[1..])
  }

  /** Every single request keeps the invariant. */
  lemma ApplyKeepsValid(d: Doc, op: Op)
    requires Valid(d)
    ensures Valid(Apply(d, op))
  {
    match op {
      case Create(p, now) => CreatePreservesValid(d, p, now);
      case Update(id, p, now) => UpdatePreservesValid(d, id, p, now);
      case Delete(id) => DeletePreservesValid(d, id);
    }
  }

  /** From any valid document (the empty one included), any history of requests leaves ids unique and below `next_id`. */
  lemma {:induction false} HistoryKeepsValid(d: Doc, ops: seq<Op>)
    requires Valid(d)
    ensures Valid(ApplyAll(d, ops))
    decreases |ops|
  {
    if |ops| > 0 {
      ApplyKeepsValid(d, ops[0]);
      HistoryKeepsValid(Apply(d, ops[0]), ops[1..]);
    }
  }
}

=== FILE: schemas.dfy ===
/**
 * The request validation rules: the listing query's pagination check and
 * the length and presence rules of the create and update bodies. Lengths
 * are counted in characters, as Python's `len` does.
 */
module Schemas {
  import opened Wrappers
  import opened Model
  import opened Query
  import opened Repository

  const DefaultPage: int := 1
  const DefaultPageSize: int := 10
  const MaxTitle: int := 200
  const MaxDescription: int := 2000
  const MaxInstructions: int := 10000

  /** The listing query string; an omitted parameter is `None`. */
  datatype ListArgs = ListArgs(page: Option<int>, pageSize: Option<int>, q: Option<string>, ingredient: Option<string>)

  /** A rejected field and the message reported for it. */
  datatype FieldError = FieldError(field: string, message: string)

  /** The page and page size after loading, with the declared defaults for omitted ones. */
  function LoadedPage(args: ListArgs): int {
    args.page.GetOr(DefaultPage)
  }

  function LoadedPageSize(args: ListArgs): int {
    args.pageSize.GetOr(DefaultPageSize)
  }

  /** Accepted pagination: a positive page and a page size from 1 to 100. */
  predicate ValidPagination(page: int, pageSize: int) {
    page >= 1 && 1 <= pageSize <= MaxPageSize
  }

  /** `validate_pagination`: the page is checked first, then the page size. */
  function ValidatePagination(page: int, pageSize: int): (err: Option<FieldError>)
    ensures err.None? <==> ValidPagination(page, pageSize)
    ensures page < 1 ==> err == Some(FieldError("page", "page must be >= 1"))
    ensures page >= 1 && (pageSize < 1 || pageSize > MaxPageSize) ==>
              err == Some(FieldError("page_size", "page_size must be between 1 and 100"))
  {
    if page < 1 then Some(FieldError("page", "page must be >= 1"))
    else if pageSize < 1 || pageSize > MaxPageSize then
      Some(FieldError("page_size", "page_size must be between 1 and 100"))
    else None
  }

  /** Omitted pagination parameters load as page 1 of size 10, and that pair is accepted. */
  lemma DefaultsAccepted(q: Option<string>, ingredient: Option<string>)
    ensures var args := ListArgs(None, None, q, ingredient);
            && LoadedPage(args) == 1 && LoadedPageSize(args) == 10
            && ValidatePagination(LoadedPage(args), LoadedPageSize(args)).None?
  {
  }

  /** Pagination that passes validation is left untouched by the listing's clamping. */
  lemma AcceptedPaginationIsNotClamped(d: Doc, q: Option<string>, ingredient: Option<string>, page: int, pageSize: int)
    requires ValidatePagination(page, pageSize).None?
    ensures ClampPage(page) == page && ClampPageSize(pageSize) == pageSize
    ensures ListRecipes(d, q, ingredient, page, pageSize).meta.page == page
    ensures ListRecipes(d, q, ingredient, page, pageSize).meta.pageSize == pageSize
  {
  }

  /** Optional text that, when present, is at most `max` characters long. */
  predicate AtMost(s: Option<string>, max: int) {
    s.Some? ==> |s.value| <= max
  }

  /** A title of 1 to 200 characters. */
  predicate GoodTitle(t: string) {
    1 <= |t| <= MaxTitle
  }

  /**
   * The create body: title required with 1..200 characters, ingredients
   * required, description at most 2000 and instructions at most 10000
   * characters when given; tags are unconstrained.
   */
  predicate ValidCreate(p: Patch) {
    && p.title.Some? && GoodTitle(p.title.value)
    && AtMost(p.description, MaxDescription)
    && p.ingredients.Some?
    && AtMost(p.instructions, MaxInstructions)
  }

  /** The update body: every field optional; a field that is given obeys the create bounds. */
  predicate ValidUpdate(p: Patch) {
    && (p.title.Some? ==> GoodTitle(p.title.value))
    && AtMost(p.description, MaxDescription)
    && AtMost(p.instructions, MaxInstructions)
  }

  /** The create body after loading: description, instructions and tags get their declared defaults. */
  function LoadCreate(p: Patch): (l: Patch)
    ensures l.description.Some? && l.instructions.Some? && l.tags.Some?
    ensures p.description.None? ==> l.description == Some("")
    ensures p.instructions.None? ==> l.instructions == Some("")
    ensures p.tags.None? ==> l.tags == Some([])
    ensures l.title == p.title && l.ingredients == p.ingredients
    ensures p.description.Some? ==> l.description == p.description
    ensures p.instructions.Some? ==> l.instructions == p.instructions
    ensures p.tags.Some? ==> l.tags == p.tags
    ensures ValidCreate(p) ==> ValidCreate(l)
  {
    p.(description := Some(p.description.GetOr("")),
       instructions := Some(p.instructions.GetOr("")),
       tags := Some(p.tags.GetOr([])))
  }

  /** A stored recipe whose text fields respect the request bounds. */
  predicate WellFormed(r: Recipe) {
    GoodTitle(r.title) && |r.description| <= MaxDescription && |r.instructions| <= MaxInstructions
  }

  /** The schema defaults and the storage defaults agree: loading first changes nothing stored. */
  lemma LoadDefaultsMatchStorage(d: Doc, p: Patch, now: int)
    ensures CreateRecipe(d, LoadCreate(p), now) == CreateRecipe(d, p, now)
  {
  }

  /** A body accepted on create is stored as a well-formed recipe. */
  lemma ValidCreateStoresWellFormed(d: Doc, p: Patch, now: int)
    requires ValidCreate(p)
    ensures WellFormed(CreateRecipe(d, p, now).recipe)
  {
  }

  /** A body accepted on update keeps a well-formed recipe well-formed. */
  lemma ValidUpdateKeepsWellFormed(d: Doc, id: int, p: Patch, now: int)
    requires ValidUpdate(p)
    requires forall i :: 0 <= i < |d.recipes| ==> WellFormed(d.recipes[i])
    ensures var u := UpdateRecipe(d, id, p, now);
            && (u.recipe.Some? ==> WellFormed(u.recipe.value))
            && forall i :: 0 <= i < |u.doc.recipes| ==> WellFormed(u.doc.recipes[i])
  {
  }
}

=== FILE: seqs.dfy ===
/**
 * The order-preserving filter that every list comprehension of the recipe
 * store is (`[r for r in rs if keep(r)]`), with the facts the store relies on.
 */
module Seqs {

  /** Number of positions of `s` whose element satisfies `keep`. */
  function CountKept<T>(s: seq<T>, keep: T -> bool): (n: nat)
    ensures n <= |s|
  {
    if |s| == 0 then 0 else (if keep(s[0]) then 1 else 0) + CountKept(s[1..], keep)
  }

  /** The elements of `s` that satisfy `keep`, in their original order. */
  function Filter<T(!new)>(s: seq<T>, keep: T -> bool): (r: seq<T>)
    ensures |r| == CountKept(s, keep)
    ensures forall x :: x in r <==> x in s && keep(x)
    ensures forall x :: multiset(r)[x] == if keep(x) then multiset(s)[x] else 0
  {
    if |s| == 0 then []
    else
      assert s == [s[0]] + s[1..];
      if keep(s[0]) then [s[0]] + Filter(s[1..], keep) else Filter(s[1..], keep)
  }

  /** `a` is obtained from `b` by deleting some elements (order is kept). */
  ghost predicate IsSubsequence<T>(a: seq<T>, b: seq<T>)
    decreases |b|
  {
    || |a| == 0
    || (&& |b| > 0
        && ((a[0] == b[0] && IsSubsequence(a[1..], b[1..])) || IsSubsequence(a, b[1..])))
  }

  /** Filtering keeps the relative order of the surviving elements. */
  lemma {:induction false} FilterIsSubsequence<T(!new)>(s: seq<T>, keep: T -> bool)
    ensures IsSubsequence(Filter(s, keep), s)
    decreases |s|
  {
    if |s| > 0 {
      var rest := Filter(s[1..], keep);
      FilterIsSubsequence(s[1..], keep);
      if keep(s[0]) {
        assert Filter(s, keep) == [s[0]] + rest;
        assert ([s[0]] + rest)[1..] == rest;
      }
    }
  }

  /** A filter that keeps everything is the identity. */
  lemma {:induction false} FilterKeepsAll<T(!new)>(s: seq<T>, keep: T -> bool)
    requires forall i :: 0 <= i < |s| ==> keep(s[i])
    ensures Filter(s, keep) == s
    decreases |s|
  {
    if |s| > 0 {
      FilterKeepsAll(s[1..], keep);
      assert [s[0]] + s[1..] == s;
    }
  }

  /** Filtering twice is filtering once by the conjunction of both tests. */
  lemma {:induction false} FilterTwice<T(!new)>(s: seq<T>, p: T -> bool, q: T -> bool, both: T -> bool)
    requires forall x :: both(x) == (p(x) && q(x))
    ensures Filter(Filter(s, p), q) == Filter(s, both)
    decreases |s|
  {
    if |s| > 0 {
      FilterTwice(s[1..], p, q, both);
      if p(s[0]) {
        var rest := Filter(s[1..], p);
        assert Filter(s, p) == [s[0]] + rest;
        assert ([s[0]] + rest)[1..] == rest;
      }
    }
  }

  /** The filter drops something exactly when some element fails the test. */
  lemma {:induction false} FilterShrinks<T(!new)>(s: seq<T>, keep: T -> bool)
    ensures |Filter(s, keep)| < |s| <==> exists i :: 0 <= i < |s| && !keep(s[i])
    decreases |s|
  {
    if |s| > 0 {
      FilterShrinks(s[1..], keep);
      if exists i :: 0 <= i < |s[1..]| && !keep(s[1..][i]) {
        var i :| 0 <= i < |s[1..]| && !keep(s[1..][i]);
        assert !keep(s[i + 1]);
      }
      if exists i :: 0 <= i < |s| && !keep(s[i]) {
        var i :| 0 <= i < |s| && !keep(s[i]);
        if i > 0 {
          assert !keep(s[1..][i - 1]);
        }
      }
    }
  }
}

=== FILE: sessions.dfy ===
/**
 * The in-memory session registry of the login stub: a map from token to
 * session record. The token and the clock reading are parameters.
 */
module Sessions {
  import opened Wrappers

  /** What a token stands for. */
  datatype Session = Session(userId: string, name: string, createdAt: int)

  type Registry = map<string, Session>

  /** `create_session`: stores the record under `token`, replacing any record already there. */
  function CreateSession(reg: Registry, token: string, userId: string, userName: string, now: int): (reg': Registry)
    ensures token in reg' && reg'[token] == Session(userId, userName, now)
    ensures reg'.Keys == reg.Keys + {token}
    ensures forall t :: t in reg && t != token ==> reg'[t] == reg[t]
  {
    reg[token := Session(userId, userName, now)]
  }

  /** `get_session`: the record for `token`, or `None`. */
  function GetSession(reg: Registry, token: string): (s: Option<Session>)
    ensures s.Some? <==> token in reg
    ensures s.Some? ==> s.value == reg[token]
  {
    if token in reg then Some(reg[token]) else None
  }

  /** `delete_session`: removes `token` if present; an absent token is not an error. */
  function DeleteSession(reg: Registry, token: string): (reg': Registry)
    ensures reg'.Keys == reg.Keys - {token}
    ensures forall t :: t in reg' ==> reg'[t] == reg[t]
    ensures token !in reg ==> reg' == reg
  {
    reg - {token}
  }

  /** Logging in and then looking the token up gives back the user who logged in. */
  lemma LoginThenLookup(reg: Registry, token: string, userId: string, userName: string, now: int)
    ensures var s := GetSession(CreateSession(reg, token, userId, userName, now), token);
            s.Some? && s.value.userId == userId && s.value.name == userName && s.value.createdAt == now
  {
  }

  /** After logging out, the token no longer resolves; other tokens are unaffected. */
  lemma LogoutThenLookup(reg: Registry, token: string, other: string)
    requires other != token
    ensures GetSession(DeleteSession(reg, token), token).None?
    ensures GetSession(DeleteSession(reg, token), other) == GetSession(reg, other)
  {
  }

  /** Logging out twice is the same as logging out once. */
  lemma LogoutIdempotent(reg: Registry, token: string)
    ensures DeleteSession(DeleteSession(reg, token), token) == DeleteSession(reg, token)
  {
  }

  /** A second login under the same token replaces the first record. */
  lemma SameTokenOverwrites(reg: Registry, token: string, u1: string, n1: string, t1: int, u2: string, n2: string, t2: int)
    ensures CreateSession(CreateSession(reg, token, u1, n1, t1), token, u2, n2, t2)
            == CreateSession(reg, token, u2, n2, t2)
  {
  }
}

=== FILE: storage.dfy ===
/**
 * Each public repository call as one read-modify-write step over the store
 * file: read (with the empty-document fallback), run the operation, and
 * write the document back only on the paths where the repository does.
 * The file is the parsed content or `None` for absent/unreadable.
 */
module Storage {
  import opened Wrappers
  import opened Model
  import opened Persistence
  import opened Query
  import opened Repository

  /** The file after a call, and the call's result. */
  datatype Stored<T> = Stored(file: Option<RawDoc>, result: T)

  /** `list_recipes` over the file; listing never writes. */
  function ListStored(file: Option<RawDoc>, q: Option<string>, ingredient: Option<string>, page: int, pageSize: int): (res: Listing)
    ensures FallsBack(file) ==> res.items == [] && res.meta.total == 0 && res.meta.totalPages == 0
    ensures FallsBack(file) ==> res.meta.lastPage == 1 && res.meta.nextPage.None?
  {
    assert FallsBack(file) ==> Search(ReadFile(file).recipes, q, ingredient) == [];
    ListRecipes(ReadFile(file), q, ingredient, page, pageSize)
  }

  /** `get_recipe` over the file; lookup never writes. */
  function GetStored(file: Option<RawDoc>, id: int): (r: Option<Recipe>)
    ensures FallsBack(file) ==> r.None?
  {
    GetRecipe(ReadFile(file), id)
  }

  /** `create_recipe` over the file: always writes the grown document. */
  function CreateStored(file: Option<RawDoc>, p: Patch, now: int): (res: Stored<Recipe>)
    ensures res.file.Some?
    ensures ReadFile(res.file).nextId == ReadFile(file).nextId + 1
    ensures ReadFile(res.file).recipes == ReadFile(file).recipes + [res.result]
    ensures res.result == NewRecipe(p, ReadFile(file).nextId, now)
    ensures FallsBack(file) ==> res.result.id == 1 && ReadFile(res.file) == Doc([res.result], 2)
  {
    var c := CreateRecipe(ReadFile(file), p, now);
    ReadAfterWrite(c.doc);
    assert c.doc.recipes == c.doc.recipes[..|ReadFile(file).recipes|] + [c.recipe];
    Stored(Some(WriteFile(c.doc)), c.recipe)
  }

  /** `update_recipe` over the file: writes only when the id was found. */
  function UpdateStored(file: Option<RawDoc>, id: int, p: Patch, now: int): (res: Stored<Option<Recipe>>)
    ensures res.result.None? <==> GetStored(file, id).None?
    ensures res.result.None? ==> res.file == file
    ensures res.result.Some? ==> res.file.Some? && ReadFile(res.file) == UpdateRecipe(ReadFile(file), id, p, now).doc
    ensures res.result.Some? ==> res.result.value == Merge(GetStored(file, id).value, p, now)
  {
    var u := UpdateRecipe(ReadFile(file), id, p, now);
    if u.recipe.None? then Stored(file, None)
    else
      ReadAfterWrite(u.doc);
      Stored(Some(WriteFile(u.doc)), u.recipe)
  }

  /** `delete_recipe` over the file: writes only when something was removed. */
  function DeleteStored(file: Option<RawDoc>, id: int): (res: Stored<bool>)
    ensures res.result <==> GetStored(file, id).Some?
    ensures !res.result ==> res.file == file
    ensures res.result ==> res.file.Some? && !HasId(ReadFile(res.file).recipes, id)
    ensures GetStored(res.file, id).None?
    ensures res.result ==> ReadFile(res.file).nextId == ReadFile(file).nextId
    ensures res.result ==> forall r :: r in ReadFile(res.file).recipes <==> r in ReadFile(file).recipes && r.id != id
  {
    var del := DeleteRecipe(ReadFile(file), id);
    if del.removed then
      ReadAfterWrite(del.doc);
      Stored(Some(WriteFile(del.doc)), true)
    else Stored(file, false)
  }
}

=== FILE: text.dfy ===
/**
 * Text helpers behind the case-insensitive search of the recipe listing:
 * lower-casing (`str.lower()`, modelled on the ASCII letters only) and the
 * substring test of Python's `needle in haystack`.
 */
module Text {

  /** True for the upper-case ASCII letters 'A'..'Z'. */
  predicate IsUpper(c: char) {
    'A' <= c <= 'Z'
  }

  /** Lower-cases one ASCII letter; every other character is returned as is. */
  function LowerChar(c: char): (l: char)
    ensures !IsUpper(l)
    ensures IsUpper(c) ==> l as int == c as int + 32
    ensures !IsUpper(c) ==> l == c
  {
    if IsUpper(c) then (c as int + 32) as char else c
  }

  /** Lower-cases a string character by character. */
  function Lower(s: string): (l: string)
    ensures |l| == |s|
    ensures forall i :: 0 <= i < |s| ==> l[i] == LowerChar(s[i])
  {
    seq(|s|, i requires 0 <= i < |s| => LowerChar(s[i]))
  }

  /** `needle` occurs in `hay` starting at index `i`. */
  predicate OccursAt(hay: string, needle: string, i: int) {
    0 <= i && i + |needle| <= |hay| && hay[i..i + |needle|] == needle
  }

  /** Python's `needle in hay` on strings: some window of `hay` equals `needle`. */
  predicate Contains(hay: string, needle: string) {
    exists i :: 0 <= i <= |hay| - |needle| && OccursAt(hay, needle, i)
  }

  /** A needle whose k-th character matches at none of the candidate positions does not occur. */
  lemma MismatchNotContained(hay: string, needle: string, k: nat)
    requires k < |needle|
    requires forall j :: k <= j <= |hay| - |needle| + k ==> hay[j] != needle[k]
    ensures !Contains(hay, needle)
  {
    forall i | 0 <= i <= |hay| - |needle|
      ensures !OccursAt(hay, needle, i)
    {
      assert hay[i..i + |needle|][k] == hay[i + k];
    }
  }
}

=== FILE: wrappers.dfy ===
/** The optional value used wherever the repository returns `None` or a key may be missing. */
module Wrappers {

  datatype Option<T> = None | Some(value: T) {

    /** The carried value, or `default` when there is none (Python's `d.get(k, default)`). */
    function GetOr(default: T): (r: T)
      ensures Some? ==> r == value
      ensures None? ==> r == default
    {
      match this
      case Some(v) => v
      case None => default
    }
  }
}
